=== FILE: README.md ===
# Circuit session bookkeeping of the quantum circuit simulator

The simulator's web server keeps one module-level circuit state. It holds the
register size (`qubits`, 2 at start), a circuit object (absent at start) and
the list of gate records shown to the user. Four handlers change that state:

- `reset_circuit` starts an empty circuit of 1..5 qubits.
- `load_example` resets and then loads the Bell-state or 2-qubit Grover example.
- `add_gate` appends one of five gates after validating it.
- `simulate_circuit` checks the shot count, appends a measurement of all qubits if none is stored, and hands the circuit to the simulator.

This project models that state machine in Dafny:

- `errors.dfy` (module `Errors`): an optional value, one `Reason` per check that makes a handler give up (load_example's and reset_circuit's size checks share one), and the single failure outcome.
- `gates.dfy` (module `Gates`): the stored records `("H", t)`, `("X", t)`, `("CX", c, t)`, `("CZ", c, t)`, `("Measure", "All")` and the Grover example's `("H", [0, 1])` and `("Grover Operator", [0, 1])`. It also defines their first components and the Measure-presence test used before simulating, plus what it means for a record to fit an n-qubit register.
- `requests.dfy` (module `Requests`): the add_gate request, its five accepted gate-type names, the checks in the order the handler makes them, and the record an accepted request produces.
- `handlers.dfy` (module `Handlers`): the state as a value, and one function per handler from the state before to the state after plus the outcome. It also defines the routing of a request to its handler and a sequence of requests handled one after another, with invariants proved over any such sequence.
- `app.dfy` (module `App`): class `CircuitState`, holding the three fields `qubits`, `hasCircuit` and `gates`. Its four methods update the fields step by step as the handlers do. Each is proved to produce exactly the transition its `Handlers` function describes, and to keep the state well formed.

The model follows the code, including where it departs from a tidy design:

- add_gate adopts the request's register size first. It discards the stored gates when no circuit exists or the size differs, and it does this even for a request it then rejects. It never range-checks the request's register size. For a negative size, the size is stored and then the circuit library refuses to build the circuit, so the old circuit (or its absence) and the old gate list stay behind next to the negative size. When a circuit existed, a following Measure request for the same negative size then succeeds without starting over; when none existed, it fails the same way again.
- load_example resets before it looks at the example name or the example's size requirement. A rejected example therefore leaves an empty circuit of the requested size.
- simulate_circuit appends the measurement to the stored list itself, so it persists across calls.
- simulate_circuit accepts a circuit with no gates. It refuses only when no circuit object exists. A design that rejects empty circuits would differ here; the model follows the code.
- Every explicit rejection is raised as a client error and then rewrapped by the handler's catch-all as a server error. The model therefore has one failure outcome. Its `Reason` only names which check fired.

## Model

| member | source | states |
|---|---|---|
| `Gates.Tag` | quantum-circuit-simulator/app.py:131-145 | a record's first component is "Measure" exactly when it is the measure-all record, so no other record, including the Grover example's, passes the Measure test |
| `Gates.Heads` | quantum-circuit-simulator/app.py:163 | the list of first components has one entry per stored record, and entry i is the tag of record i |
| `Gates.HasMeasure` | quantum-circuit-simulator/app.py:163 | "Measure" occurs among the first components exactly when a measure-all record is stored |
| `Handlers.Prepare` | quantum-circuit-simulator/app.py:114-117 | add_gate's first step always stores the request's size; it keeps the session when a circuit of that size exists; otherwise it starts an empty circuit, or, for a negative size the library refuses, keeps the old circuit flag and gate list |
| `Requests.Validate` | quantum-circuit-simulator/app.py:119-129 | the sequence of checks passes exactly for admissible requests: a known gate type, a target in [0, qubits) unless Measure, and for CX/CZ a control in [0, qubits) different from the target; an unknown type is reported first, and a bad target is reported before any control check |
| `Requests.RecordFor` | quantum-circuit-simulator/app.py:131-145 | the record built for an accepted request fits the request's register, and it is the measure-all record exactly for the gate type "Measure" |
| `Handlers.ResetCircuit` | quantum-circuit-simulator/app.py:62-74 | fails exactly when qubits is outside 1..5, and then leaves the state unchanged; on success the state is an empty circuit of the requested size |
| `Handlers.LoadExample` | quantum-circuit-simulator/app.py:76-108 | succeeds exactly for Bell with at least 2 qubits or Grover with exactly 2, within 1..5; a size outside 1..5 changes nothing; otherwise the state is reset to the requested size before the example is checked, so a rejected example leaves an empty circuit; Bell stores H(0), CX(0,1) and Grover stores the H layer and the Grover operator on [0,1] |
| `Handlers.AddGate` | quantum-circuit-simulator/app.py:110-152 | afterwards the stored size is the request's, accepted or not, and a circuit exists unless none existed and the size is negative; a rebuild with a negative size fails before any validation; otherwise the request is accepted exactly when it is admissible and a rejection reports the first failing check; a rejection leaves the list as the first step left it; the stored list survives when a circuit of the same size existed; an accepted request appends exactly one record after the kept ones, namely H(t), X(t), CX(c,t), CZ(c,t) or measure-all according to the gate type; a well-formed state stays well formed |
| `Handlers.NegativeSizeWithoutCircuitKeepsFailing` | quantum-circuit-simulator/app.py:114-117 | from any session without a circuit, an add_gate request of any kind for a negative size only stores that size and fails to build a circuit, and repeating it fails the same way and leaves the same session |
| `Handlers.NegativeSizeKeepsOldGates` | quantum-circuit-simulator/app.py:114-145 | from any session holding a circuit, a Measure request for a different, negative size first fails but stores that size and keeps the old gates; the same request then succeeds without starting over and appends a measurement after the old circuit's gates |
| `Handlers.SimulateCircuit` | quantum-circuit-simulator/app.py:154-178 | succeeds exactly when shots lie in 100..10000 and a circuit exists; the shot check comes first; a failure changes nothing; success appends measure-all exactly when none is stored, so afterwards a measurement is always present; size and circuit are kept, and well-formedness is preserved |
| `Handlers.SimulateIdempotent` | quantum-circuit-simulator/app.py:163-165 | after one successful simulation, another simulate call leaves the state unchanged, so the list does not grow again |
| `Handlers.Handle` | quantum-circuit-simulator/app.py:62-178 | whichever handler a request reaches, a well-formed state stays well formed and an existing circuit stays existing |
| `Handlers.ServeKeepsWellFormed` | quantum-circuit-simulator/app.py:26 | any sequence of requests keeps the state well formed: no stored gates without a circuit, and, while the stored size is not negative, every stored index within the stored register, with control and target distinct |
| `Handlers.ServeKeepsCircuit` | quantum-circuit-simulator/app.py:26 | once a circuit exists, no sequence of requests removes it |
| `Handlers.ServedFromStartWellFormed` | quantum-circuit-simulator/app.py:26 | from the server's initial state (2 qubits, no circuit, no gates), every reachable state is well formed in that sense |
| `App.CircuitState.constructor` | quantum-circuit-simulator/app.py:26 | the initial state is 2 qubits, no circuit and an empty gate list, and it is well formed |
| `App.CircuitState.ResetCircuit` | quantum-circuit-simulator/app.py:62-74 | the fields after the call and the outcome are those of `Handlers.ResetCircuit` applied to the fields before; well-formedness is kept |
| `App.CircuitState.LoadExample` | quantum-circuit-simulator/app.py:76-108 | the fields after the call and the outcome are those of `Handlers.LoadExample` applied to the fields before; well-formedness is kept |
| `App.CircuitState.AddGate` | quantum-circuit-simulator/app.py:110-152 | the fields after the call and the outcome are those of `Handlers.AddGate` applied to the fields before; well-formedness is kept |
| `App.CircuitState.SimulateCircuit` | quantum-circuit-simulator/app.py:154-178 | the fields after the call and the outcome are those of `Handlers.SimulateCircuit` applied to the fields before; well-formedness is kept |

## Left out

- The circuit object and the circuit library's gate calls (`h`, `x`, `cx`, `cz`, `measure`, the Grover operator, app.py:88-98 and 132-144) are foreign code. They are modelled only as "a circuit exists".
- Failures inside the circuit library other than its refusal of a negative register size are not modelled. Gate application and circuit construction for a size of 0 or more are treated as always succeeding.
- The simulator run and its outcome counts (app.py:167-170) are randomized floating-point simulation in a foreign library. A successful simulate call is modelled only as success plus the change to the stored list; no amplitudes or histogram are modelled. When the stored size is 0, or it is negative and the circuit kept from before holds no measurement, the circuit measures nothing (measuring `range` of that size measures no qubit), whether or not simulate appended the record; the program then fails in the simulator while the model reports success; the stored state is the same either way. A negative size kept beside an older circuit that already measures (a Measure gate added before a rejected rebuild) simulates successfully, as the model reports.
- Diagram and histogram rendering to base64 PNG (app.py:34-51) is I/O and foreign code. Its possible failure after the state has already changed is not modelled.
- Serving the index page (app.py:53-60) is a file read.
- HTTP routing, request parsing, logging and the static and template mounts (app.py:1-23, 28-32) are framework glue. The response bodies are left out too: reset_circuit returns the (empty) gate list and no image, load_example and add_gate return the gate list and a diagram image, and simulate_circuit returns a diagram and a histogram image.
- Exact status codes and detail strings are left out. Every failure is one outcome, because the catch-all turns each explicit 400 into a 500.
- Concurrent requests against the shared state are left out. Handlers are modelled as calls made one after another.

=== FILE: app.dfy ===
/** The server's module-level circuit state and the four handlers that update
    it in place, each proved to perform the transition its `Handlers`
    function describes. */
module App {
  import opened Errors
  import opened Gates
  import opened Requests
  import Handlers

  class CircuitState {
    var qubits: int
    /** Whether a circuit object exists; the object itself belongs to the
        circuit library and is not modelled. */
    var hasCircuit: bool
    var gates: seq<GateRecord>

    /** The fields as a session value. */
    function Snapshot(): Handlers.Session
      reads this
    {
      Handlers.Session(qubits, hasCircuit, gates)
    }

    ghost predicate Valid()
      reads this
    {
      Handlers.WellFormed(Snapshot())
    }

    /** The state at server start: 2 qubits, no circuit, no gates. */
    constructor ()
      ensures Snapshot() == Handlers.Initial
      ensures Valid()
    {
      qubits := 2;
      hasCircuit := false;
      gates := [];
    }

    method ResetCircuit(n: int) returns (outcome: Outcome)
      requires Valid()
      modifies this
      ensures Valid()
      ensures Snapshot() == Handlers.ResetCircuit(old(Snapshot()), n).after
      ensures outcome == Handlers.ResetCircuit(old(Snapshot()), n).outcome
    {
      if !Handlers.RegisterSizeOk(n) {
        return Failed(QubitsOutOfRange);
      }
      qubits := n;
      hasCircuit := true;
      gates := [];
      outcome := Ok;
    }

    method LoadExample(example: string, n: int) returns (outcome: Outcome)
      requires Valid()
      modifies this
      ensures Valid()
      ensures Snapshot() == Handlers.LoadExample(old(Snapshot()), example, n).after
      ensures outcome == Handlers.LoadExample(old(Snapshot()), example, n).outcome
    {
      if !Handlers.RegisterSizeOk(n) {
        return Failed(QubitsOutOfRange);
      }
      qubits := n;
      hasCircuit := true;
      gates := [];

      if example == Handlers.BellName {
        if n < 2 {
          return Failed(BellNeedsTwoQubits);
        }
        gates := [H(0), CX(0, 1)];
      } else if example == Handlers.GroverName {
        if n != 2 {
          return Failed(GroverNeedsTwoQubits);
        }
        gates := [HList([0, 1]), GroverOp([0, 1])];
      } else {
        return Failed(UnknownExample);
      }
      outcome := Ok;
    }

    method AddGate(request: GateRequest) returns (outcome: Outcome)
      requires Valid()
      modifies this
      ensures Valid()
      ensures Snapshot() == Handlers.AddGate(old(Snapshot()), request).after
      ensures outcome == Handlers.AddGate(old(Snapshot()), request).outcome
    {
      if !hasCircuit || qubits != request.qubits {
        qubits := request.qubits;
        // the circuit library refuses a negative register size
        if request.qubits < 0 {
          return Failed(CircuitNotBuilt);
        }
        hasCircuit := true;
        gates := [];
      }

      var gateType := request.gateType;
      if gateType !in GateTypes {
        return Failed(UnknownGateType);
      }
      var target := request.targetQubit;
      var control := request.controlQubit;
      if gateType != MeasureName {
        if target.None? || !InRegister(target.value, request.qubits) {
          return Failed(InvalidTarget);
        }
        if gateType in TwoQubitTypes {
          if control.None? || !InRegister(control.value, request.qubits) {
            return Failed(InvalidControl);
          }
          if control.value == target.value {
            return Failed(ControlEqualsTarget);
          }
        }
      }

      if gateType == HadamardName {
        gates := gates + [H(target.value)];
      } else if gateType == PauliXName {
        gates := gates + [X(target.value)];
      } else if gateType == CnotName {
        gates := gates + [CX(control.value, target.value)];
      } else if gateType == CzName {
        gates := gates + [CZ(control.value, target.value)];
      } else if gateType == MeasureName {
        gates := gates + [MeasureAll];
      }
      outcome := Ok;
    }

    method SimulateCircuit(shots: int) returns (outcome: Outcome)
      requires Valid()
      modifies this
      ensures Valid()
      ensures Snapshot() == Handlers.SimulateCircuit(old(Snapshot()), shots).after
      ensures outcome == Handlers.SimulateCircuit(old(Snapshot()), shots).outcome
    {
      if !Handlers.ShotsOk(shots) {
        return Failed(ShotsOutOfRange);
      }
      if !hasCircuit {
        return Failed(NoCircuit);
      }
      if MeasureTag !in Heads(gates) {
        gates := gates + [MeasureAll];
      }
      outcome := Ok;
    }
  }
}

=== FILE: errors.dfy ===
/** Outcomes of the session handlers.

    Every handler raises an HTTP error at a handful of places and wraps its
    whole body in a catch-all that re-raises whatever it caught as a generic
    server error. A caller therefore sees one kind of failure; `Reason` only
    records which check fired, so that contracts can say which check comes
    first. */
module Errors {

  /** An optional value: a request field that may be absent. */
  datatype Option<T> = None | Some(value: T)

  /** The check that made a handler give up. */
  datatype Reason =
    | QubitsOutOfRange       // reset_circuit and load_example: qubits not in 1..5
    | CircuitNotBuilt        // add_gate: the circuit library refused a negative register size
    | BellNeedsTwoQubits     // load_example: Bell state on fewer than 2 qubits
    | GroverNeedsTwoQubits   // load_example: Grover example on other than 2 qubits
    | UnknownExample         // load_example: no such example
    | UnknownGateType        // add_gate: gate type not among the five names
    | InvalidTarget          // add_gate: target missing or outside the register
    | InvalidControl         // add_gate: control missing or outside the register
    | ControlEqualsTarget    // add_gate: control and target are the same qubit
    | ShotsOutOfRange        // simulate_circuit: shots not in 100..10000
    | NoCircuit              // simulate_circuit: no circuit built yet

  /** What a handler reports: success, or the single failure kind. */
  datatype Outcome = Ok | Failed(reason: Reason)
}

=== FILE: gates.dfy ===
/** The records the session keeps in its gate list.

    The list stores tuples whose first component names the operation; the
    Measure-presence test used before simulating looks only at those first
    components. */
module Gates {

  /** One stored record. `H`, `X`, `CX`, `CZ` and `MeasureAll` are the records
      add_gate appends (`("H", t)`, `("X", t)`, `("CX", c, t)`, `("CZ", c, t)`,
      `("Measure", "All")`); `HList` and `GroverOp` occur only in the Grover
      example (`("H", [0, 1])`, `("Grover Operator", [0, 1])`). */
  datatype GateRecord =
    | H(target: int)
    | X(target: int)
    | CX(control: int, target: int)
    | CZ(control: int, target: int)
    | MeasureAll
    | HList(qs: seq<int>)
    | GroverOp(qs: seq<int>)

  const MeasureTag := "Measure"

  /** The first component of a stored tuple. Only a measurement record carries
      the tag "Measure"; the Hadamard layer of the Grover example shares the tag
      "H" with a single Hadamard. */
  function Tag(g: GateRecord): (t: string)
    ensures t == MeasureTag <==> g == MeasureAll
  {
    match g
    case H(_) => "H"
    case X(_) => "X"
    case CX(_, _) => "CX"
    case CZ(_, _) => "CZ"
    case MeasureAll => MeasureTag
    case HList(_) => "H"
    case GroverOp(_) => "Grover Operator"
  }

  /** The list of first components, `[g[0] for g in gates]`. */
  function Heads(gs: seq<GateRecord>): (hs: seq<string>)
    ensures |hs| == |gs|
    ensures forall i :: 0 <= i < |gs| ==> hs[i] == Tag(gs[i])
  {
    if gs == [] then [] else [Tag(gs[0])] + Heads(gs[1..])
  }

  /** The Measure-presence test: "Measure" occurs among the first components.
      It finds exactly the measurement records. */
  predicate HasMeasure(gs: seq<GateRecord>): (b: bool)
    ensures b <==> MeasureAll in gs
  {
    MeasureTag in Heads(gs)
  }

  predicate InRegister(q: int, n: int)
  {
    0 <= q < n
  }

  /** A record fits an n-qubit register: every index it names is in [0, n)
      and a two-qubit gate names two different qubits. */
  predicate Fits(g: GateRecord, n: int)
  {
    match g
    case H(t) => InRegister(t, n)
    case X(t) => InRegister(t, n)
    case CX(c, t) => InRegister(c, n) && InRegister(t, n) && c != t
    case CZ(c, t) => InRegister(c, n) && InRegister(t, n) && c != t
    case MeasureAll => true
    case HList(qs) => forall q :: q in qs ==> InRegister(q, n)
    case GroverOp(qs) => forall q :: q in qs ==> InRegister(q, n)
  }

  predicate AllFit(gs: seq<GateRecord>, n: int)
  {
    forall i :: 0 <= i < |gs| ==> Fits(gs[i], n)
  }
}

=== FILE: handlers.dfy ===
/** The four session handlers as transitions on a session value.

    The server keeps one module-level session: the register size, the circuit
    object (modelled only as present or absent; the gates applied to it are
    the library's business) and the list of stored gate records. Each handler
    is a function from the session before the call to the session after it and
    what the caller is told. */
module Handlers {
  import opened Errors
  import opened Gates
  import opened Requests

  datatype Session = Session(qubits: int, hasCircuit: bool, gates: seq<GateRecord>)

  /** A handler's effect: the new session and the outcome reported. */
  datatype Reply = Reply(after: Session, outcome: Outcome)

  /** The session at server start: 2 qubits, no circuit, no gates. */
  const Initial := Session(2, false, [])

  const BellName := "Bell State (Entanglement)"
  const GroverName := "Grover's Algorithm (2-Qubit Search)"
  const BellGates := [H(0), CX(0, 1)]
  const GroverGates := [HList([0, 1]), GroverOp([0, 1])]

  predicate RegisterSizeOk(n: int)
  {
    1 <= n <= 5
  }

  predicate ShotsOk(shots: int)
  {
    100 <= shots <= 10000
  }

  /** What the session promises at every point between calls: no gate is
      stored without a circuit, and while the stored register size is not
      negative every stored record fits it. A negative size can be stored only
      by an add_gate whose circuit could not be built; the gates of the old
      circuit then stay, and nothing relates them to that size. */
  predicate WellFormed(s: Session)
  {
    && (!s.hasCircuit ==> s.gates == [])
    && (s.qubits >= 0 ==> AllFit(s.gates, s.qubits))
  }

  /** A new circuit of n qubits with nothing applied yet. */
  function Fresh(n: int): Session
  {
    Session(n, true, [])
  }

  /** reset_circuit: rejects a size outside 1..5 before touching anything;
      otherwise starts an empty circuit of that size. */
  function ResetCircuit(s: Session, qubits: int): (r: Reply)
    ensures r.outcome.Ok? <==> RegisterSizeOk(qubits)
    ensures r.outcome.Failed? ==> r.after == s && r.outcome.reason == QubitsOutOfRange
    ensures r.outcome.Ok? ==> r.after.qubits == qubits && r.after.hasCircuit && r.after.gates == []
    ensures r.outcome.Ok? ==> WellFormed(r.after)
  {
    if !RegisterSizeOk(qubits) then Reply(s, Failed(QubitsOutOfRange))
    else Reply(Fresh(qubits), Ok)
  }

  /** load_example: checks the size, then resets, and only then looks at the
      example name and its own size requirement, so a rejected example leaves
      the freshly reset session behind. */
  function LoadExample(s: Session, example: string, qubits: int): (r: Reply)
    ensures r.outcome.Ok? <==>
              RegisterSizeOk(qubits) &&
              ((example == BellName && qubits >= 2) || (example == GroverName && qubits == 2))
    ensures !RegisterSizeOk(qubits) ==> r == Reply(s, Failed(QubitsOutOfRange))
    ensures RegisterSizeOk(qubits) ==> r.after.qubits == qubits && r.after.hasCircuit
    ensures RegisterSizeOk(qubits) && r.outcome.Failed? ==> r.after.gates == []
    ensures r.outcome.Ok? && example == BellName ==> r.after.gates == [H(0), CX(0, 1)]
    ensures r.outcome.Ok? && example == GroverName ==> r.after.gates == [HList([0, 1]), GroverOp([0, 1])]
    ensures RegisterSizeOk(qubits) ==> WellFormed(r.after)
  {
    if !RegisterSizeOk(qubits) then Reply(s, Failed(QubitsOutOfRange))
    else
      var reset := Fresh(qubits);
      if example == BellName then
        if qubits < 2 then Reply(reset, Failed(BellNeedsTwoQubits))
        else Reply(reset.(gates := BellGates), Ok)
      else if example == GroverName then
        if qubits != 2 then Reply(reset, Failed(GroverNeedsTwoQubits))
        else Reply(reset.(gates := GroverGates), Ok)
      else Reply(reset, Failed(UnknownExample))
  }

  /** Whether add_gate starts over: no circuit yet, or one of another size. */
  predicate NeedsReset(s: Session, n: int)
  {
    !s.hasCircuit || s.qubits != n
  }

  /** Whether that fresh start fails: the circuit library refuses a negative
      register size, after the size has already been stored. */
  predicate BuildFails(s: Session, n: int)
  {
    NeedsReset(s, n) && n < 0
  }

  /** The session after add_gate's first step. It always stores the request's
      size. It keeps the session when a circuit of that size exists, and starts
      an empty circuit otherwise; when that circuit cannot be built, the old
      circuit (or its absence) and the old gate list stay. */
  function Prepare(s: Session, n: int): (p: Session)
    ensures p.qubits == n
    ensures !NeedsReset(s, n) ==> p == s
    ensures NeedsReset(s, n) && n >= 0 ==> p.hasCircuit && p.gates == []
    ensures BuildFails(s, n) ==> p.hasCircuit == s.hasCircuit && p.gates == s.gates
  {
    if !NeedsReset(s, n) then s
    else if n < 0 then s.(qubits := n)
    else Fresh(n)
  }

  /** add_gate: first adopts the request's register size (discarding the
      stored gates when there is no circuit or the size differs), whether or
      not the request is then accepted; then checks the request and appends one
      record. */
  function AddGate(s: Session, req: GateRequest): (r: Reply)
    ensures r.after.qubits == req.qubits
    ensures r.after.hasCircuit <==> s.hasCircuit || req.qubits >= 0
    ensures r.outcome.Ok? <==> !BuildFails(s, req.qubits) && Admissible(req)
    ensures BuildFails(s, req.qubits) ==> r.outcome == Failed(CircuitNotBuilt)
    ensures r.outcome.Failed? && !BuildFails(s, req.qubits) ==> Some(r.outcome.reason) == Validate(req)
    ensures r.outcome.Failed? ==> r.after.gates == Prepare(s, req.qubits).gates
    ensures !NeedsReset(s, req.qubits) ==> s.gates <= r.after.gates
    ensures r.outcome.Ok? ==>
              |r.after.gates| == |Prepare(s, req.qubits).gates| + 1 &&
              r.after.gates[..|r.after.gates| - 1] == Prepare(s, req.qubits).gates
    ensures r.outcome.Ok? && req.gateType == HadamardName ==>
              r.after.gates[|r.after.gates| - 1] == H(req.targetQubit.value)
    ensures r.outcome.Ok? && req.gateType == PauliXName ==>
              r.after.gates[|r.after.gates| - 1] == X(req.targetQubit.value)
    ensures r.outcome.Ok? && req.gateType == CnotName ==>
              r.after.gates[|r.after.gates| - 1] == CX(req.controlQubit.value, req.targetQubit.value)
    ensures r.outcome.Ok? && req.gateType == CzName ==>
              r.after.gates[|r.after.gates| - 1] == CZ(req.controlQubit.value, req.targetQubit.value)
    ensures r.outcome.Ok? && req.gateType == MeasureName ==>
              r.after.gates[|r.after.gates| - 1] == MeasureAll
    ensures WellFormed(s) ==> WellFormed(r.after)
  {
    var prepared := Prepare(s, req.qubits);
    if BuildFails(s, req.qubits) then Reply(prepared, Failed(CircuitNotBuilt))
    else
      match Validate(req)
      case Some(reason) => Reply(prepared, Failed(reason))
      case None => Reply(prepared.(gates := prepared.gates + [RecordFor(req)]), Ok)
  }

  /** A negative register size is never range-checked by add_gate. When a
      circuit exists and the size differs, a Measure request for that size
      first fails to build a circuit but stores the size; the same request
      then finds a circuit of the stored size, so it succeeds without starting
      over and appends the measurement after the old circuit's gates. */
  lemma NegativeSizeKeepsOldGates(s: Session, n: int)
    requires s.hasCircuit && n < 0 && n != s.qubits
    ensures var req := GateRequest(MeasureName, None, None, n);
            var first := AddGate(s, req);
            var second := AddGate(first.after, req);
            && first == Reply(s.(qubits := n), Failed(CircuitNotBuilt))
            && second == Reply(s.(qubits := n, gates := s.gates + [MeasureAll]), Ok)
  {
  }

  /** Without a circuit, a negative size never gets one: any add_gate request
      for a negative size only stores that size and fails to build, and
      repeating it fails the same way and leaves the same session. */
  lemma NegativeSizeWithoutCircuitKeepsFailing(s: Session, req: GateRequest)
    requires !s.hasCircuit && req.qubits < 0
    ensures var first := AddGate(s, req);
            && first == Reply(s.(qubits := req.qubits), Failed(CircuitNotBuilt))
            && AddGate(first.after, req) == first
  {
  }

  /** simulate_circuit: checks the shot count, then that a circuit exists, and
      appends a measurement of all qubits to the stored list when no stored
      record is a measurement. The sampling itself is the simulator's. */
  function SimulateCircuit(s: Session, shots: int): (r: Reply)
    ensures r.outcome.Ok? <==> ShotsOk(shots) && s.hasCircuit
    ensures !ShotsOk(shots) ==> r.outcome == Failed(ShotsOutOfRange)
    ensures ShotsOk(shots) && !s.hasCircuit ==> r.outcome == Failed(NoCircuit)
    ensures r.outcome.Failed? ==> r.after == s
    ensures r.outcome.Ok? ==> r.after.qubits == s.qubits && r.after.hasCircuit
    ensures r.outcome.Ok? ==> (r.after.gates == s.gates <==> MeasureAll in s.gates)
    ensures r.outcome.Ok? && MeasureAll !in s.gates ==> r.after.gates == s.gates + [MeasureAll]
    ensures r.outcome.Ok? ==> MeasureAll in r.after.gates
    ensures WellFormed(s) ==> WellFormed(r.after)
  {
    if !ShotsOk(shots) then Reply(s, Failed(ShotsOutOfRange))
    else if !s.hasCircuit then Reply(s, Failed(NoCircuit))
    else if !HasMeasure(s.gates) then
      Reply(s.(gates := s.gates + [MeasureAll]), Ok)
    else Reply(s, Ok)
  }

  /** Simulating again does not grow the list: after one successful
      simulation, any further simulate call leaves the session as it is. */
  lemma SimulateIdempotent(s: Session, shots: int, moreShots: int)
    requires SimulateCircuit(s, shots).outcome.Ok?
    ensures var t := SimulateCircuit(s, shots).after;
            SimulateCircuit(t, moreShots).after == t
  {
  }

  /** One request to the server, routed to its handler. */
  datatype Request =
    | ResetRequest(qubits: int)
    | LoadExampleRequest(example: string, exampleQubits: int)
    | AddGateRequest(gate: GateRequest)
    | SimulateRequest(shots: int)

  function Handle(s: Session, req: Request): (r: Reply)
    ensures WellFormed(s) ==> WellFormed(r.after)
    ensures s.hasCircuit ==> r.after.hasCircuit
  {
    match req
    case ResetRequest(n) => ResetCircuit(s, n)
    case LoadExampleRequest(name, n) => LoadExample(s, name, n)
    case AddGateRequest(g) => AddGate(s, g)
    case SimulateRequest(shots) => SimulateCircuit(s, shots)
  }

  /** The session after handling the requests one after another. */
  function Serve(s: Session, reqs: seq<Request>): Session
    decreases |reqs|
  {
    if reqs == [] then s else Serve(Handle(s, reqs[0]).after, reqs[1..])
  }

  /** Any sequence of requests keeps the session well formed. */
  lemma {:induction false} ServeKeepsWellFormed(s: Session, reqs: seq<Request>)
    requires WellFormed(s)
    ensures WellFormed(Serve(s, reqs))
    decreases |reqs|
  {
    if reqs != [] {
      ServeKeepsWellFormed(Handle(s, reqs[0]).after, reqs[1..]);
    }
  }

  /** Once a circuit exists, no request removes it. */
  lemma {:induction false} ServeKeepsCircuit(s: Session, reqs: seq<Request>)
    requires s.hasCircuit
    ensures Serve(s, reqs).hasCircuit
    decreases |reqs|
  {
    if reqs != [] {
      ServeKeepsCircuit(Handle(s, reqs[0]).after, reqs[1..]);
    }
  }

  /** From server start, whatever requests arrive, no gate is ever stored
      without a circuit and, while the stored size is not negative, every
      stored record fits the stored register. */
  lemma ServedFromStartWellFormed(reqs: seq<Request>)
    ensures WellFormed(Serve(Initial, reqs))
  {
    ServeKeepsWellFormed(Initial, reqs);
  }
}

=== FILE: requests.dfy ===
/** The add_gate request and the checks add_gate applies to it. */
module Requests {
  import opened Errors
  import opened Gates

  const HadamardName := "H (Hadamard)"
  const PauliXName := "X (Pauli-X)"
  const CnotName := "CX (CNOT)"
  const CzName := "CZ (Controlled-Z)"
  const MeasureName := "Measure"

  /** The five gate-type names add_gate accepts. */
  const GateTypes := [HadamardName, PauliXName, CnotName, CzName, MeasureName]

  /** The gate types that also need a control qubit. */
  const TwoQubitTypes := [CnotName, CzName]

  /** The request body: a gate-type name, optional target and control indices
      and the register size the client believes in. */
  datatype GateRequest = GateRequest(
    gateType: string,
    targetQubit: Option<int>,
    controlQubit: Option<int>,
    qubits: int)

  /** An optional index that is present and addresses a qubit of an n-qubit
      register. */
  predicate Addresses(q: Option<int>, n: int)
  {
    q.Some? && InRegister(q.value, n)
  }

  /** Which requests add_gate accepts, stated all at once: a known gate type;
      a target in the register unless it is Measure; for CX and CZ also a
      control in the register that differs from the target. */
  predicate Admissible(req: GateRequest)
  {
    && req.gateType in GateTypes
    && (req.gateType != MeasureName ==> Addresses(req.targetQubit, req.qubits))
    && (req.gateType in TwoQubitTypes ==>
          Addresses(req.controlQubit, req.qubits) && req.controlQubit != req.targetQubit)
  }

  /** add_gate's checks in the order it makes them; `None` when all pass. The
      register size checked against is the request's own, which is never
      itself range-checked. */
  function Validate(req: GateRequest): (r: Option<Reason>)
    ensures r.None? <==> Admissible(req)
    ensures req.gateType !in GateTypes ==> r == Some(UnknownGateType)
    ensures (req.gateType in GateTypes && req.gateType != MeasureName &&
             !Addresses(req.targetQubit, req.qubits)) ==> r == Some(InvalidTarget)
    ensures r.Some? ==> r.value in {UnknownGateType, InvalidTarget, InvalidControl, ControlEqualsTarget}
  {
    if req.gateType !in GateTypes then Some(UnknownGateType)
    else if req.gateType == MeasureName then None
    else if !Addresses(req.targetQubit, req.qubits) then Some(InvalidTarget)
    else if req.gateType !in TwoQubitTypes then None
    else if !Addresses(req.controlQubit, req.qubits) then Some(InvalidControl)
    else if req.controlQubit.value == req.targetQubit.value then Some(ControlEqualsTarget)
    else None
  }

  /** The record add_gate appends for an accepted request. It always fits the
      request's register, and it is a measurement exactly for "Measure". */
  function RecordFor(req: GateRequest): (g: GateRecord)
    requires Admissible(req)
    ensures Fits(g, req.qubits)
    ensures g == MeasureAll <==> req.gateType == MeasureName
  {
    if req.gateType == HadamardName then H(req.targetQubit.value)
    else if req.gateType == PauliXName then X(req.targetQubit.value)
    else if req.gateType == CnotName then CX(req.controlQubit.value, req.targetQubit.value)
    else if req.gateType == CzName then CZ(req.controlQubit.value, req.targetQubit.value)
    else MeasureAll
  }
}
